=== FILE: README.md ===
# DaniM negotiation agent: a Dafny model of its decision logic

DaniM is a bilateral negotiation agent built for the GeniusWeb platform. During
the first 10% of the negotiation it plays aggressively, offering its own best
bids. When that exploration phase ends, it classifies the opponent once, as
Conceder, Hardliner or Random, from how the opponent's offers were valued by
the agent's own utility. The archetype fixes three hyperparameters: the
selfishness weight alpha, the reservation value and the time-pressure exponent
eps. It also triggers a re-sort of all bids by own plus predicted opponent
utility. Every opponent offer, in exploration and after it, refreshes two signals:

- fairness, from the gap between the two utilities of the last offer;
- stance, from the predicted opponent utility of the last two offers.

A fixed table maps (archetype, stance, fairness) to a scoring strategy. On its
own turn the agent takes one of two actions:

- it accepts the opponent's last offer when the acceptance test holds;
- otherwise it scans a bounded window of the sorted bids and offers the first
  bid of highest score among those above its reservation value.

The model is functional:

- The agent is an immutable record, `Agent.AgentState`.
- Every event is a pure state transformer.
- The bid search is a method with a loop.
- Utilities are `real`.
- Collaborators are opaque function-typed fields and parameters. They are the
  own utility, the opponent model's prediction and weights, the value counts,
  and the social-welfare score.
- A bid is a map from issue names to value names.

Modules:

| file | module | models |
|---|---|---|
| `types.dfy` | `Types` | bids, the own profile, the opponent estimate, the context a strategy scores in |
| `enums.dfy` | `Enums` | fairness, stance and archetype enumerations |
| `sorting.dfy` | `Sorting` | Python's stable descending sort, first-match search, left-to-right argmax |
| `opponent_signals.dfy` | `OpponentSignals` | archetype classifier, hyperparameter table, fairness, stance |
| `strategy_factory.dfy` | `StrategyFactory` | strategy-selection table |
| `aggressive_early_offers.dfy` | `AggressiveEarlyOffers` | exploration-phase scoring |
| `continued_concessions.dfy` | `ContinuedConcessions` | concession-gated welfare scoring |
| `continued_smaller_concessions.dfy` | `ContinuedSmallerConcessions` | concession gate with the inline alpha/time-pressure blend |
| `logrolling.dfy` | `Logrolling` | search objective and objective-gated scoring |
| `respond_to_extreme_offer.dfy` | `RespondToExtremeOffer` | margin-gated mirroring of the opponent's level |
| `agent.dfy` | `Agent` | initial state, per-offer update, acceptance, strategy dispatch, window search, runs of events |

### Consequences of the code

- The Random threshold `int(0.45 * n)` counts utilities, not differences. For n = 6 the threshold is 2. So the alternating history `[0.2, 0.8, 0.1, 0.9, 0.15, 0.85]`, with 3 rises and 2 falls, is Conceder (`OpponentSignals.AlternatingSixIsConceder`). No history shorter than 11 offers is ever Random (`OpponentSignals.RandomNeedsElevenOffers`).
- Greedy or Unfair Hardliners and every Random opponent get Logrolling. Only Logrolling and ContinuedConcessions are ever selected (`StrategyFactory.NeverSelected`).
- The reservation value only falls, and a bid joins the own offers only after clearing it. So every bid the search offers clears the current reservation value, the fallback re-offer included (`Agent.FindBid`).
- Two docstrings disagree with the code they document. `get_search_objective` says it takes the opponent's "best issue", but the ascending sort of the estimated weights picks a least-weighted one; `Logrolling.OpponentTargetIssue` states the latter. `adjust_opponent_fairness` says a gap "less than 0.4" is fair, but the code tests `<= 0.4`; `OpponentSignals.AdjustFairness` states the latter.

## Model

| member | source | states |
|---|---|---|
| StrategyFactory.SelectStrategy | agents/daniM_agent/negotiation_strategies/negotiation_strategy_factory.py:14-29 | the table is total, returns only Logrolling or ContinuedConcessions, and returns ContinuedConcessions exactly for a Fair opponent that is a non-Greedy Conceder or a Generous Hardliner |
| StrategyFactory.GreedyOrUnfairGetsLogrolling | agents/daniM_agent/negotiation_strategies/negotiation_strategy_factory.py:14-16 | a Greedy or Unfair opponent of any archetype gets Logrolling |
| StrategyFactory.RandomGetsLogrolling | agents/daniM_agent/negotiation_strategies/negotiation_strategy_factory.py:28-29 | Random, and Unknown by fall-through, get Logrolling for every stance and fairness |
| StrategyFactory.NeverSelected | agents/daniM_agent/negotiation_strategies/negotiation_strategy_factory.py:14-29 | AggressiveEarlyOffers, ContinuedSmallerConcessions and RespondToExtremeOffer are never selected |
| Sorting.SortDesc | agents/daniM_agent/daniM_agent.py:121 | the re-sort returns a permutation of its input ordered by non-increasing key |
| Sorting.FirstKept | agents/daniM_agent/negotiation_strategies/logrolling_strategy.py:54-57 | the first-match loop returns an element that passes the test, and every earlier element fails it |
| Sorting.FirstKeptOfSorted | agents/daniM_agent/negotiation_strategies/logrolling_strategy.py:41-57 | the first passing element after a stable descending sort is the earliest passing element of greatest key in the original order |
| Sorting.ArgMaxAbove | agents/daniM_agent/negotiation_strategies/logrolling_strategy.py:61-65 | a strict-improvement scan from a floor returns nothing exactly when no key exceeds the floor, and otherwise returns the first position of maximal key |
| OpponentSignals.CountDiffsIsSetSize | agents/daniM_agent/daniM_agent.py:260-262 | the count of positive (or negative) successive differences is the size of the set of positions where they occur |
| OpponentSignals.RisesAndFallsBounded | agents/daniM_agent/daniM_agent.py:260-262 | rises plus falls never exceed the number of differences, n - 1 |
| OpponentSignals.Classify | agents/daniM_agent/daniM_agent.py:260-272 | never Unknown; Random exactly when both the rises and the falls exceed int(0.45 n); a Conceder's last utility exceeds its first by more than 0.15, a Hardliner's does not |
| OpponentSignals.RandomNeedsElevenOffers | agents/daniM_agent/daniM_agent.py:264-265 | because the threshold counts utilities rather than differences, a Random verdict needs at least 11 offers |
| OpponentSignals.NoFallsIsNotRandom | agents/daniM_agent/daniM_agent.py:262-265 | a history that never falls is not Random |
| OpponentSignals.ConstantHistoryIsHardliner | agents/daniM_agent/daniM_agent.py:266-272 | a constant history (for example three equal utilities) is Hardliner |
| OpponentSignals.SingleOfferIsHardliner | agents/daniM_agent/daniM_agent.py:260-272 | a one-offer history has no differences and no drift, so it is Hardliner rather than a crash |
| OpponentSignals.AlternatingSixIsConceder | agents/daniM_agent/daniM_agent.py:260-270 | [0.2, 0.8, 0.1, 0.9, 0.15, 0.85] is Conceder: 2 falls do not exceed int(2.7) = 2 |
| OpponentSignals.RisingHistoryIsConceder | agents/daniM_agent/daniM_agent.py:266-270 | a steadily rising history with drift 0.6 is Conceder |
| OpponentSignals.AdjustByType | agents/daniM_agent/daniM_agent.py:189-200 | Conceder sets (0.95, 0.75, 0.1), Random (0.875, 0.70, 0.15), Hardliner (0.80, 0.65, 0.2); Unknown keeps the current values |
| OpponentSignals.ConcessionGrowsWithToughness | agents/daniM_agent/daniM_agent.py:189-200 | from Conceder through Random to Hardliner, alpha and the reservation value strictly fall and eps strictly rises |
| OpponentSignals.AdjustFairness | agents/daniM_agent/daniM_agent.py:210-213 | Unfair exactly when the utility gap exceeds 0.4 and the predicted opponent utility exceeds 0.5; a predicted opponent utility of at most 0.5 is always Fair |
| OpponentSignals.AdjustStance | agents/daniM_agent/daniM_agent.py:223-234 | with fewer than two offers the stance is kept; otherwise Generous, Neutral or Greedy exactly when the last offer's predicted opponent utility is above, equal to or below the one before |
| OpponentSignals.RepeatedOfferIsNeutral | agents/daniM_agent/daniM_agent.py:223-232 | two identical consecutive offers make the opponent Neutral |
| AggressiveEarlyOffers.ScoreBid | agents/daniM_agent/negotiation_strategies/aggressive_early_offers_strategy.py:13-19 | the score is the own utility and the cursor moves exactly one position on |
| AggressiveEarlyOffers.ScoreIgnoresEverythingElse | agents/daniM_agent/negotiation_strategies/aggressive_early_offers_strategy.py:13-19 | two contexts that agree on the own utility of a bid give it the same score, whatever the opponent model, time pressure, histories and cursor |
| ContinuedConcessions.ScoreBid | agents/daniM_agent/negotiation_strategies/continued_concessions_strategy.py:12-33 | with at most two own bids the score is the own utility; afterwards a bid that does not lower own utility, or does not raise the opponent's predicted utility, relative to the last own bid scores 0, and a strict mutual concession scores its welfare |
| ContinuedConcessions.RepeatScoresZero | agents/daniM_agent/negotiation_strategies/continued_concessions_strategy.py:17-28 | re-offering the last own bid scores 0 once there are more than two own bids |
| ContinuedConcessions.UnusualScoreMeansConcession | agents/daniM_agent/negotiation_strategies/continued_concessions_strategy.py:17-33 | a score that is neither 0 nor the own utility implies more than two own bids and a strict mutual concession |
| ContinuedSmallerConcessions.ScoreBid | agents/daniM_agent/negotiation_strategies/continued_smaller_concessions_strategy.py:10-36 | with at most two own bids the score is the own utility; afterwards a non-concession scores 0 and a concession scores the blend alpha tp U + (1 - alpha tp) V |
| ContinuedSmallerConcessions.BlendBetween | agents/daniM_agent/negotiation_strategies/continued_smaller_concessions_strategy.py:27-33 | with weight alpha tp in [0, 1] the blend lies between the two utilities |
| ContinuedSmallerConcessions.ScoreWithinUnitRange | agents/daniM_agent/negotiation_strategies/continued_smaller_concessions_strategy.py:20-35 | with utilities and alpha tp in [0, 1] every score lies in [0, 1], and a non-zero score reaches at least one of the two utilities |
| RespondToExtremeOffer.ScoreBid | agents/daniM_agent/negotiation_strategies/respond_to_extreme_offer_strategy.py:9-20 | without an opponent offer the score is the own utility; a bid more than 0.03 below the last offer's predicted opponent utility scores 0; any other bid's score plus its distance from that level is exactly 1 |
| RespondToExtremeOffer.MarginIsAdmitted | agents/daniM_agent/negotiation_strategies/respond_to_extreme_offer_strategy.py:17-20 | a bid exactly 0.03 below the level is admitted and scores 0.97 |
| RespondToExtremeOffer.ScoreInUnitRange | agents/daniM_agent/negotiation_strategies/respond_to_extreme_offer_strategy.py:17-20 | with utilities in [0, 1] the score is in [0, 1], and it is 1 exactly when the own utility equals the level |
| RespondToExtremeOffer.CloserScoresHigher | agents/daniM_agent/negotiation_strategies/respond_to_extreme_offer_strategy.py:20 | among admitted bids, a strictly closer own utility scores strictly higher |
| Logrolling.OwnTargetIssue | agents/daniM_agent/negotiation_strategies/logrolling_strategy.py:40-52 | the own target issue is the first issue, in profile order, of maximal own weight |
| Logrolling.OpponentTargetIssue | agents/daniM_agent/negotiation_strategies/logrolling_strategy.py:46-57 | the opponent target issue differs from the own one and is the first, in estimator order, of least estimated opponent weight among the other issues |
| Logrolling.OwnTargetValue | agents/daniM_agent/negotiation_strategies/logrolling_strategy.py:59-65 | the own target value is absent exactly when no value's utility exceeds -1, and otherwise is the first value in domain order of maximal value utility |
| Logrolling.OpponentTargetValue | agents/daniM_agent/negotiation_strategies/logrolling_strategy.py:68-74 | the opponent target value is absent exactly when every count is negative (so for an empty tracker), and otherwise the first tracked value of greatest count |
| Logrolling.SearchObjective | agents/daniM_agent/negotiation_strategies/logrolling_strategy.py:53-76 | the objective has exactly two distinct keys, the two target issues, mapped to their target values |
| Logrolling.SatisfiesBoth | agents/daniM_agent/negotiation_strategies/logrolling_strategy.py:25-27 | a bid passes the objective check exactly when it carries the target value on both target issues; a missing value never matches |
| Logrolling.ScoreBid | agents/daniM_agent/negotiation_strategies/logrolling_strategy.py:15-30 | without an opponent model the score is the own utility; otherwise a bid scores its welfare when it carries both target values and 0 when it misses either |
| Logrolling.EmptyTrackerScoresZero | agents/daniM_agent/negotiation_strategies/logrolling_strategy.py:68-76 | with nothing tracked for the opponent's target issue, every bid scores 0 |
| Logrolling.TwoIssuesSuffice | agents/daniM_agent/negotiation_strategies/logrolling_strategy.py:52-57 | two distinct estimated issues are enough for the objective to exist |
| Agent.InitialState | agents/daniM_agent/daniM_agent.py:113-121 | the bids start as a permutation of the domain's bids sorted by own utility, the BATNA is the reservation bid's utility or 0, and both invariants hold |
| Agent.OnOffer | agents/daniM_agent/daniM_agent.py:243-289 | the offer is recorded; classification fires exactly when it has not happened and progress is at least 0.1, and then sets the archetype and its hyperparameters, resets the cursor and re-sorts the bids by combined utility as a permutation; otherwise those parts are unchanged; fairness and stance are refreshed; from progress 0.1 on the strategy is the table's choice for a classified opponent, before that it is unchanged; own bids and the BATNA never change |
| Agent.OnOpponentAction | agents/daniM_agent/daniM_agent.py:236-243 | an accept from the opponent changes nothing |
| Agent.OnOpponentActionPreservesInvariant | agents/daniM_agent/daniM_agent.py:243-289 | every opponent action preserves the invariant: classified exactly when the archetype is known and exactly when the strategy is no longer the exploration one, only the two selectable strategies after that, and a model behind any selected strategy |
| Agent.SelectionNeverSeesUnknown | agents/daniM_agent/daniM_agent.py:259-289 | classification precedes selection, so from progress 0.1 on the archetype is known and the exploration strategy is gone |
| Agent.RunPreservesInvariant | agents/daniM_agent/daniM_agent.py:236-289 | the invariant holds after any sequence of opponent actions |
| Agent.OnOpponentActionKeepsOwnBidsAboveReservation | agents/daniM_agent/daniM_agent.py:189-200 | an opponent action keeps every own offer above the reservation value, because classification only lowers it from 0.8 to 0.75, 0.70 or 0.65 |
| Agent.RunKeepsOwnBidsAboveReservation | agents/daniM_agent/daniM_agent.py:259-274 | every own offer stays above the reservation value after any sequence of opponent actions |
| Agent.ClassificationIsFinal | agents/daniM_agent/daniM_agent.py:259-280 | once classified, no later sequence of actions changes the archetype or the hyperparameters |
| Agent.ExplorationKeepsAggressive | agents/daniM_agent/daniM_agent.py:286-289 | while every action arrives before progress 0.1, the agent stays unclassified and keeps the exploration strategy |
| Agent.AcceptCondition | agents/daniM_agent/daniM_agent.py:318-336 | no bid is never accepted; a bid is accepted exactly when its utility exceeds the reservation value, or progress is at least 0.99 and its utility exceeds the BATNA |
| Agent.AcceptanceIsMonotone | agents/daniM_agent/daniM_agent.py:325-336 | a bid accepted now is accepted later, and so is any bid of at least its utility |
| Agent.ScoreBid | agents/daniM_agent/negotiation_strategies/aggressive_early_offers_strategy.py:18-19 | scoring through the current strategy changes no part of the agent except that the exploration strategy moves the cursor by exactly one |
| Agent.InvariantMeetsScorePre | agents/daniM_agent/daniM_agent.py:286-289 | every reachable state meets what its strategy needs to score, given a domain where the logrolling objective exists |
| Agent.SearchEnd | agents/daniM_agent/daniM_agent.py:351-353 | the window end never passes the number of bids, is at least 5 past the cursor unless capped, and is at most 750 past it |
| Agent.MoveOn | agents/daniM_agent/daniM_agent.py:355 | the cursor's own position is skipped exactly when the last 10 own bids are all the same bid |
| Agent.FindBid | agents/daniM_agent/daniM_agent.py:338-372 | on success the offer is the first candidate of highest score in the window among those above the reservation value and scoring above -1, the cursor moves to it and it is appended to the own bids; otherwise no candidate in the window qualifies, the last own bid is offered again, and only the exploration strategy's cursor moves, by the number of bids scanned; when every earlier own offer clears the reservation value, so does every offered bid, fallback included, and the property carries over to the new state; the search preserves the agent invariant and either leaves the own bids alone or appends exactly the offered bid |
| Agent.ScanWindow | agents/daniM_agent/daniM_agent.py:357-363 | the loop yields the first qualifying candidate of highest score in the window, or none exactly when no candidate qualifies; scoring leaves the state unchanged except that the exploration strategy's cursor moves once per position scanned |
| Agent.AppendKeepsOwnBidsAboveReservation | agents/daniM_agent/daniM_agent.py:362-370 | appending a bid that clears the reservation value keeps every own offer above it |
| Agent.ChosenBidClearsReservation | agents/daniM_agent/daniM_agent.py:361-363 | a bid chosen by the search is above the reservation value |
| Agent.ExplorationRepeatsOffer | agents/daniM_agent/daniM_agent.py:355-370 | while exploring over bids sorted by own utility with fewer than 9 own offers, the first search succeeds exactly when some candidate in its window qualifies, and a successful search is followed by a search that offers the very same bid |
| Agent.FindBidAdvancing | agents/daniM_agent/negotiation_strategies/aggressive_early_offers_strategy.py:16-18 | the search of `find_bid` with the cursor left one past the chosen position: same choice, same fallback, same own-bid update |
| Agent.ExplorationAdvancesOffer | agents/daniM_agent/negotiation_strategies/aggressive_early_offers_strategy.py:16-18 | with the corrected cursor and distinct bids, each of two consecutive exploration searches succeeds exactly when some candidate in its window qualifies, the strategy stays the exploration one between them, and when both succeed they offer different bids |

## Findings

| source | as written | input that shows it | evidently intended | confidence | as-written member | corrected member |
|---|---|---|---|---|---|---|
| agents/daniM_agent/daniM_agent.py:369 | a successful search sets the cursor to the chosen position, overwriting the aggressive strategy's per-score increments | exploration phase, bids sorted by own utility, fewer than 9 own offers: two consecutive searches choose the same position and offer the same bid (it repeats until the ten-repeat skip at daniM_agent.py:355) | the aggressive strategy's cursor moves keep the same bid from being sent twice in a row (aggressive_early_offers_strategy.py:16) | not executed | Agent.ExplorationRepeatsOffer | Agent.ExplorationAdvancesOffer |

`Agent.FindBid` keeps modelling the code as written. `Agent.FindBidAdvancing` is the corrected search, which leaves the cursor one position past the chosen bid.

## Left out

- GeniusWeb plumbing is not modelled: `notifyChange`, `getCapabilities`, `getDescription`, `send_action` and the Offer/Accept construction in `my_turn`. They are protocol glue over an external library. The model keeps only the reservation-bid and sort steps of the settings handler (`Agent.InitialState`).
- `save_data` is not modelled, because it only writes a file.
- The wall clock is not modelled. Progress is a real parameter of every event. The source reads the clock separately in `opponent_action`, `accept_condition` and `find_bid`, and the model takes one value per call.
- The opponent model (`utils/opponent_model.py`) is not part of this model. Its predicted utility, issue-weight estimates and value counts are opaque inputs. The model assumes `update` appends each offer to its offer list.
- The own utility space is an external library. `getUtility`, `getWeights` and the per-issue value utilities are opaque inputs.
- `score_bid_for_social_welfare` is not defined in the source's strategy base class, so the welfare score is an opaque function.
- The time pressure `1 - progress ** (1 / eps)` is an input, because it needs a real exponent.
- Floating-point rounding and numpy are not modelled. Utilities are exact reals. `int(0.45 * n)` is the integer division `(45 * n) / 100`.
- The abstract base class `negotiation_strategy.py` is not modelled. Its signatures do not match the implementations, and it has no behaviour.
- `if self.profile and bid`: the model assumes a profile exists and every bid is truthy, so every offer's utility is recorded.
- Logrolling.ScoreBid: requires the search objective to exist once there is an opponent model. That means at least one own issue and an estimated issue other than the own target. The source fails with an exception otherwise.
- ContinuedConcessions.ScoreBid: requires an opponent model once there are more than two own bids, because the source dereferences it unchecked there.
- ContinuedSmallerConcessions.ScoreBid: requires an opponent model once there are more than two own bids, for the same reason.
- Agent.FindBid: the fallback with no own bids, where the source raises IndexError, is modelled as offering `None`.
- Agent.InvariantMeetsScorePre: assumes a domain where the logrolling objective exists, as above.

=== FILE: agent.dfy ===
/**
 The DaniM agent's decision logic: the state it keeps between events, the
 update it performs on every opponent offer (classification, hyperparameters,
 fairness, stance, strategy switch), the acceptance test, and the bounded
 window search for the next bid to offer.
 */
module Agent {
  import opened Types
  import opened Enums
  import opened Sorting
  import opened OpponentSignals
  import opened StrategyFactory
  import AggressiveEarlyOffers
  import ContinuedConcessions
  import ContinuedSmallerConcessions
  import Logrolling
  import RespondToExtremeOffer

  /** Everything the agent remembers between events. */
  datatype AgentState = AgentState(
    classificationDone: bool,
    negotiationType: NegotiationType,
    stance: Stance,
    fairness: Fairness,
    tunables: Tunables,               // alpha, reservation value, eps
    batna: real,
    lastBidSentIndex: nat,            // the search cursor into allBids
    ownBids: seq<Bid>,
    allBids: seq<Bid>,                // every bid of the domain, in search order
    opponentUtilities: seq<real>,     // own utility of each opponent offer
    hasModel: bool,                   // the opponent model has been created
    offers: seq<Bid>,                 // the opponent model's record of opponent offers
    lastReceived: Option<Bid>,
    strategy: Strategy
  )

  /** What the agent reads from its collaborators at one moment. */
  datatype Environment = Environment(
    profile: Profile,
    opponent: OpponentEstimate,
    welfare: Bid -> real,   // the social-welfare score, opaque
    progress: real,         // fraction of the deadline elapsed
    timePressure: real      // 1 - progress^(1/eps)
  )

  /** An action of the opponent. */
  datatype Action = Offer(bid: Bid) | Accept(bid: Bid)

  // ---------------------------------------------------------------------------
  // Initial state
  // ---------------------------------------------------------------------------

  /**
   The state after construction and the session settings: every bid sorted by
   own utility, best first, and the BATNA the utility of the reservation bid
   (0 when the profile has none).
   */
  function InitialState(bids: seq<Bid>, utility: Bid -> real, reservationBid: Option<Bid>): (st: AgentState)
    ensures multiset(st.allBids) == multiset(bids)
    ensures forall i, j :: 0 <= i < j < |st.allBids| ==> utility(st.allBids[i]) >= utility(st.allBids[j])
    ensures st.batna == (if reservationBid.Some? then utility(reservationBid.value) else 0.0)
    ensures st.tunables == InitialTunables && st.lastBidSentIndex == 0 && st.ownBids == []
    ensures Invariant(st)
    ensures OwnBidsClearReservation(st, utility)
  {
    AgentState(
      classificationDone := false,
      negotiationType := Unknown,
      stance := Neutral,
      fairness := Fair,
      tunables := InitialTunables,
      batna := if reservationBid.Some? then utility(reservationBid.value) else 0.0,
      lastBidSentIndex := 0,
      ownBids := [],
      allBids := SortDesc(bids, utility),
      opponentUtilities := [],
      hasModel := false,
      offers := [],
      lastReceived := None,
      strategy := AggressiveEarlyOffers)
  }

  /**
   What holds of every state the agent reaches: classification and the
   strategy switch go together, only Logrolling and ContinuedConcessions are
   ever selected, and a selected strategy always has an opponent model.
   */
  ghost predicate Invariant(st: AgentState)
  {
    && (st.classificationDone <==> st.negotiationType != Unknown)
    && (st.classificationDone <==> st.strategy != AggressiveEarlyOffers)
    && (st.strategy == AggressiveEarlyOffers || st.strategy == Logrolling || st.strategy == ContinuedConcessions)
    && (st.strategy != AggressiveEarlyOffers ==> st.hasModel)
    && (st.hasModel <==> |st.offers| > 0)
    && |st.opponentUtilities| == |st.offers|
    && (st.lastReceived.Some? <==> st.hasModel)
  }

  /**
   Every own offer on record clears the current reservation value. It holds
   because the reservation value only ever falls (0.8 until the one-shot
   classification, then 0.75, 0.70 or 0.65) and `find_bid` appends a bid to
   the own offers only after it has cleared the reservation value of the time.
   */
  ghost predicate OwnBidsClearReservation(st: AgentState, utility: Bid -> real)
  {
    && (!st.classificationDone ==> st.tunables == InitialTunables)
    && (forall k :: 0 <= k < |st.ownBids| ==> utility(st.ownBids[k]) > st.tunables.reservation)
  }

  // ---------------------------------------------------------------------------
  // Per-offer update
  // ---------------------------------------------------------------------------

  /** The key of the re-sort after classification: own plus predicted opponent utility. */
  function CombinedUtility(utility: Bid -> real, predicted: Bid -> real): Bid -> real
  {
    b => utility(b) + predicted(b)
  }

  /** Whether an offer received at `progress` triggers the one-shot classification. */
  predicate ClassifiesNow(st: AgentState, progress: real)
  {
    !st.classificationDone && progress >= ExplorationTimeLimit
  }

  /**
   The one-shot classification: archetype from the own-utility history, the
   archetype's hyperparameters, the cursor back to 0 and the bids re-sorted by
   combined utility.
   */
  function Classified(st: AgentState, utility: Bid -> real, predicted: Bid -> real): AgentState
    requires |st.opponentUtilities| >= 1
  {
    var t := Classify(st.opponentUtilities);
    st.(classificationDone := true,
        negotiationType := t,
        tunables := AdjustByType(t, st.tunables),
        lastBidSentIndex := 0,
        allBids := SortDesc(st.allBids, CombinedUtility(utility, predicted)))
  }

  /**
   The update on an opponent offer. `predicted` is the opponent model's
   prediction after it has taken in `bid`; `progress` is read once.
   */
  function OnOffer(st: AgentState, bid: Bid, utility: Bid -> real, predicted: Bid -> real, progress: real): (st': AgentState)
    ensures st'.offers == st.offers + [bid] && st'.hasModel && st'.lastReceived == Some(bid)
    ensures st'.opponentUtilities == st.opponentUtilities + [utility(bid)]
    ensures ClassifiesNow(st, progress) ==>
              && st'.classificationDone
              && st'.negotiationType == Classify(st'.opponentUtilities)
              && st'.tunables == AdjustByType(st'.negotiationType, st.tunables)
              && st'.lastBidSentIndex == 0
              && multiset(st'.allBids) == multiset(st.allBids)
              && (forall i, j :: 0 <= i < j < |st'.allBids| ==>
                    utility(st'.allBids[i]) + predicted(st'.allBids[i]) >= utility(st'.allBids[j]) + predicted(st'.allBids[j]))
    ensures !ClassifiesNow(st, progress) ==>
              && st'.classificationDone == st.classificationDone
              && st'.negotiationType == st.negotiationType
              && st'.tunables == st.tunables
              && st'.lastBidSentIndex == st.lastBidSentIndex
              && st'.allBids == st.allBids
    ensures st'.fairness == AdjustFairness(utility(bid), predicted(bid))
    ensures st'.stance == AdjustStance(st.stance, st'.offers, predicted)
    ensures progress >= ExplorationTimeLimit ==>
              st'.classificationDone && st'.strategy == SelectStrategy(st'.negotiationType, st'.stance, st'.fairness)
    ensures progress < ExplorationTimeLimit ==> st'.strategy == st.strategy
    ensures st'.ownBids == st.ownBids && st'.batna == st.batna
  {
    var received := st.(hasModel := true,
                        offers := st.offers + [bid],
                        lastReceived := Some(bid),
                        opponentUtilities := st.opponentUtilities + [utility(bid)]);
    var classified :=
      if !received.classificationDone && progress >= ExplorationTimeLimit
      then Classified(received, utility, predicted)
      else received;
    var signals := classified.(fairness := AdjustFairness(utility(bid), predicted(bid)),
                               stance := AdjustStance(classified.stance, classified.offers, predicted));
    if progress >= ExplorationTimeLimit then
      signals.(strategy := SelectStrategy(signals.negotiationType, signals.stance, signals.fairness))
    else
      signals
  }

  /** `opponent_action`: only an offer changes the state. */
  function OnOpponentAction(st: AgentState, action: Action, utility: Bid -> real, predicted: Bid -> real, progress: real): (st': AgentState)
    ensures action.Accept? ==> st' == st
  {
    match action
    case Offer(bid) => OnOffer(st, bid, utility, predicted, progress)
    case Accept(_) => st
  }

  lemma OnOpponentActionPreservesInvariant(st: AgentState, action: Action, utility: Bid -> real, predicted: Bid -> real, progress: real)
    requires Invariant(st)
    ensures Invariant(OnOpponentAction(st, action, utility, predicted, progress))
  {
    if action.Offer? {
      var st' := OnOffer(st, action.bid, utility, predicted, progress);
      if progress >= ExplorationTimeLimit {
        assert st'.negotiationType != Unknown;
      }
    }
  }

  /** Classification precedes selection: the strategy table never sees Unknown. */
  lemma SelectionNeverSeesUnknown(st: AgentState, bid: Bid, utility: Bid -> real, predicted: Bid -> real, progress: real)
    requires Invariant(st)
    requires progress >= ExplorationTimeLimit
    ensures OnOffer(st, bid, utility, predicted, progress).negotiationType != Unknown
    ensures OnOffer(st, bid, utility, predicted, progress).strategy != AggressiveEarlyOffers
  {
  }

  /** Classification lowers the reservation value, so the own offers keep clearing it. */
  lemma OnOpponentActionKeepsOwnBidsAboveReservation(st: AgentState, action: Action, utility: Bid -> real, predicted: Bid -> real, progress: real)
    requires OwnBidsClearReservation(st, utility)
    ensures OwnBidsClearReservation(OnOpponentAction(st, action, utility, predicted, progress), utility)
  {
  }

  /** One observed opponent action, with the opponent prediction after it and the time it was seen. */
  datatype Event = Event(action: Action, predicted: Bid -> real, progress: real)

  /** The state after a sequence of opponent actions. */
  function Run(st: AgentState, utility: Bid -> real, events: seq<Event>): AgentState
    decreases |events|
  {
    if |events| == 0 then st
    else Run(OnOpponentAction(st, events[0].action, utility, events[0].predicted, events[0].progress), utility, events[1..])
  }

  lemma {:induction false} RunPreservesInvariant(st: AgentState, utility: Bid -> real, events: seq<Event>)
    requires Invariant(st)
    ensures Invariant(Run(st, utility, events))
    decreases |events|
  {
    if |events| > 0 {
      var e := events[0];
      OnOpponentActionPreservesInvariant(st, e.action, utility, e.predicted, e.progress);
      RunPreservesInvariant(OnOpponentAction(st, e.action, utility, e.predicted, e.progress), utility, events[1..]);
    }
  }

  lemma {:induction false} RunKeepsOwnBidsAboveReservation(st: AgentState, utility: Bid -> real, events: seq<Event>)
    requires OwnBidsClearReservation(st, utility)
    ensures OwnBidsClearReservation(Run(st, utility, events), utility)
    decreases |events|
  {
    if |events| > 0 {
      var e := events[0];
      OnOpponentActionKeepsOwnBidsAboveReservation(st, e.action, utility, e.predicted, e.progress);
      RunKeepsOwnBidsAboveReservation(OnOpponentAction(st, e.action, utility, e.predicted, e.progress), utility, events[1..]);
    }
  }

  /** Once classified, the archetype and the hyperparameters never change again. */
  lemma {:induction false} ClassificationIsFinal(st: AgentState, utility: Bid -> real, events: seq<Event>)
    requires st.classificationDone
    ensures Run(st, utility, events).classificationDone
    ensures Run(st, utility, events).negotiationType == st.negotiationType
    ensures Run(st, utility, events).tunables == st.tunables
    decreases |events|
  {
    if |events| > 0 {
      var e := events[0];
      ClassificationIsFinal(OnOpponentAction(st, e.action, utility, e.predicted, e.progress), utility, events[1..]);
    }
  }

  /** While progress stays below the exploration limit, the agent keeps the aggressive strategy, unclassified. */
  lemma {:induction false} ExplorationKeepsAggressive(st: AgentState, utility: Bid -> real, events: seq<Event>)
    requires !st.classificationDone && st.strategy == AggressiveEarlyOffers && st.negotiationType == Unknown
    requires forall k :: 0 <= k < |events| ==> events[k].progress < ExplorationTimeLimit
    ensures !Run(st, utility, events).classificationDone
    ensures Run(st, utility, events).strategy == AggressiveEarlyOffers
    ensures Run(st, utility, events).negotiationType == Unknown
    decreases |events|
  {
    if |events| > 0 {
      var e := events[0];
      ExplorationKeepsAggressive(OnOpponentAction(st, e.action, utility, e.predicted, e.progress), utility, events[1..]);
    }
  }

  // ---------------------------------------------------------------------------
  // Acceptance
  // ---------------------------------------------------------------------------

  /** Progress from which a bid above the BATNA is accepted. */
  const NearDeadline: real := 0.99

  /** `accept_condition`: accept when any of the two conditions holds. */
  function AcceptCondition(st: AgentState, bid: Option<Bid>, utility: Bid -> real, progress: real): (r: bool)
    ensures bid.None? ==> !r
    ensures bid.Some? ==>
              (r <==> utility(bid.value) > st.tunables.reservation
                      || (progress >= NearDeadline && utility(bid.value) > st.batna))
  {
    match bid
    case None => false
    case Some(b) =>
      var conditions := [
        utility(b) > st.tunables.reservation,
        progress >= NearDeadline && utility(b) > st.batna
      ];
      true in conditions
  }

  /** A bid the agent accepts now it also accepts later, and any bid it values more. */
  lemma AcceptanceIsMonotone(st: AgentState, b: Bid, c: Bid, utility: Bid -> real, p: real, q: real)
    requires AcceptCondition(st, Some(b), utility, p)
    requires p <= q && utility(b) <= utility(c)
    ensures AcceptCondition(st, Some(c), utility, q)
  {
  }

  // ---------------------------------------------------------------------------
  // Scoring dispatch
  // ---------------------------------------------------------------------------

  /** What the current strategy sees of the agent. The cursor is not part of it. */
  function Context(st: AgentState, env: Environment): ScoringContext
  {
    ScoringContext(env.profile, env.opponent, st.hasModel, st.offers, st.ownBids,
                   st.tunables.alpha, env.timePressure, env.welfare)
  }

  /** What each strategy demands before it can score (`get_search_objective` raises, or the opponent model is dereferenced while absent, otherwise). */
  predicate ScorePre(strategy: Strategy, ctx: ScoringContext)
  {
    match strategy
    case Logrolling => ctx.hasModel ==> Logrolling.ObjectiveDefined(ctx)
    case ContinuedConcessions => |ctx.ownBids| >= MinOwnBids ==> ctx.hasModel
    case ContinuedSmallerConcessions => |ctx.ownBids| >= MinOwnBids ==> ctx.hasModel
    case _ => true
  }

  /** The score the strategy gives `bid`. */
  function Score(strategy: Strategy, ctx: ScoringContext, bid: Bid): real
    requires ScorePre(strategy, ctx)
  {
    match strategy
    case AggressiveEarlyOffers => AggressiveEarlyOffers.ScoreBid(ctx, 0, bid).0
    case ContinuedConcessions => ContinuedConcessions.ScoreBid(ctx, bid)
    case ContinuedSmallerConcessions => ContinuedSmallerConcessions.ScoreBid(ctx, bid)
    case Logrolling => Logrolling.ScoreBid(ctx, bid)
    case RespondToExtremeOffer => RespondToExtremeOffer.ScoreBid(ctx, bid)
  }

  /**
   `negotiation_strategy.score_bid(bid, agent)`: the score, and the agent
   state after the call. Only the aggressive strategy changes the state, and
   only by moving the cursor one position on.
   */
  function ScoreBid(st: AgentState, env: Environment, bid: Bid): (r: (real, AgentState))
    requires ScorePre(st.strategy, Context(st, env))
    ensures r.0 == Score(st.strategy, Context(st, env), bid)
    ensures r.1.lastBidSentIndex == st.lastBidSentIndex + (if st.strategy == AggressiveEarlyOffers then 1 else 0)
    ensures r.1.(lastBidSentIndex := st.lastBidSentIndex) == st
  {
    match st.strategy
    case AggressiveEarlyOffers =>
      var (score, cursor) := AggressiveEarlyOffers.ScoreBid(Context(st, env), st.lastBidSentIndex, bid);
      (score, st.(lastBidSentIndex := cursor))
    case _ =>
      (Score(st.strategy, Context(st, env), bid), st)
  }

  /** Reachable states meet every strategy's demands, given a domain where the logrolling objective exists. */
  lemma InvariantMeetsScorePre(st: AgentState, env: Environment)
    requires Invariant(st)
    requires st.hasModel ==> Logrolling.ObjectiveDefined(Context(st, env))
    ensures ScorePre(st.strategy, Context(st, env))
  {
  }

  // ---------------------------------------------------------------------------
  // Bid search
  // ---------------------------------------------------------------------------

  const WindowScale: real := 750.0
  const MinWindow: real := 5.0
  const RepeatLimit: nat := 10

  /**
   The exclusive end of the search window: `int(cursor + max(750 * progress, 5))`,
   capped by the number of bids.
   */
  function SearchEnd(cursor: nat, progress: real, size: nat): (r: nat)
    ensures r <= size
    ensures r == size || r >= cursor + 5
    ensures progress <= 1.0 ==> r <= cursor + 750
  {
    var window := if progress * WindowScale >= MinWindow then progress * WindowScale else MinWindow;
    var bound := (cursor as real + window).Floor;
    if bound < size then bound else size
  }

  /** The last `RepeatLimit` own bids are all the same bid: the search then skips the cursor's own position. */
  function MoveOn(ownBids: seq<Bid>): (r: bool)
    ensures r <==> |ownBids| >= RepeatLimit
                   && forall k :: |ownBids| - RepeatLimit <= k < |ownBids| ==> ownBids[k] == ownBids[|ownBids| - 1]
  {
    if RepeatLimit <= |ownBids| then
      var start := |ownBids| - RepeatLimit;
      var recent := ownBids[start..];
      assert (forall e | e in recent :: e == Last(ownBids))
             <==> (forall k :: start <= k < |ownBids| ==> ownBids[k] == ownBids[|ownBids| - 1]) by {
        forall k | start <= k < |ownBids|
          ensures ownBids[k] == recent[k - start] && recent[k - start] in recent
        {
        }
      }
      forall e | e in recent :: e == Last(ownBids)
    else
      false
  }

  /** The first position scanned. */
  function SearchStart(st: AgentState): nat
  {
    st.lastBidSentIndex + (if MoveOn(st.ownBids) then 1 else 0)
  }

  /** The score of the candidate at position `i`. */
  function ScoreAt(st: AgentState, env: Environment, i: nat): real
    requires ScorePre(st.strategy, Context(st, env))
    requires i < |st.allBids|
  {
    Score(st.strategy, Context(st, env), st.allBids[i])
  }

  /** A candidate can be chosen: own utility above the reservation value and a score above -1. */
  ghost predicate Qualifies(st: AgentState, env: Environment, i: nat)
    requires ScorePre(st.strategy, Context(st, env))
  {
    && i < |st.allBids|
    && env.profile.utility(st.allBids[i]) > st.tunables.reservation
    && ScoreAt(st, env, i) > -1.0
  }

  /** Position `k` holds the first qualifying candidate of maximal score in `[lo, hi)`. */
  ghost predicate IsChosen(st: AgentState, env: Environment, lo: nat, hi: nat, k: nat)
    requires ScorePre(st.strategy, Context(st, env))
  {
    && lo <= k < hi
    && Qualifies(st, env, k)
    && (forall j :: lo <= j < hi && Qualifies(st, env, j) ==> ScoreAt(st, env, j) <= ScoreAt(st, env, k))
    && (forall j :: lo <= j < k && Qualifies(st, env, j) ==> ScoreAt(st, env, j) < ScoreAt(st, env, k))
  }

  /** How many positions a scan of `[lo, hi)` visits. */
  function Scanned(lo: nat, hi: nat): nat
  {
    if lo < hi then hi - lo else 0
  }

  /**
   `find_bid`. The window `[SearchStart, SearchEnd)` is fixed before any
   scoring. On success the chosen bid is appended to the own bids and the
   cursor moved to it; otherwise the last own bid is offered again (`None`
   models the IndexError `find_bid` raises when there is none) and nothing else changes,
   except that the aggressive strategy's cursor moves stay.
   */
  method FindBid(st: AgentState, env: Environment) returns (offer: Option<Bid>, chosen: Option<nat>, st': AgentState)
    requires ScorePre(st.strategy, Context(st, env))
    ensures chosen.Some? ==>
              && IsChosen(st, env, SearchStart(st), SearchEnd(st.lastBidSentIndex, env.progress, |st.allBids|), chosen.value)
              && offer == Some(st.allBids[chosen.value])
              && st' == st.(lastBidSentIndex := chosen.value, ownBids := st.ownBids + [st.allBids[chosen.value]])
    ensures chosen.None? ==>
              && (forall i :: SearchStart(st) <= i < SearchEnd(st.lastBidSentIndex, env.progress, |st.allBids|) ==>
                    !Qualifies(st, env, i))
              && offer == (if |st.ownBids| > 0 then Some(Last(st.ownBids)) else None)
              && st' == st.(lastBidSentIndex := st.lastBidSentIndex +
                              if st.strategy == AggressiveEarlyOffers
                              then Scanned(SearchStart(st), SearchEnd(st.lastBidSentIndex, env.progress, |st.allBids|))
                              else 0)
    ensures OwnBidsClearReservation(st, env.profile.utility) ==>
              && OwnBidsClearReservation(st', env.profile.utility)
              && (offer.Some? ==> env.profile.utility(offer.value) > st.tunables.reservation)
    ensures Invariant(st) ==> Invariant(st')
    ensures st'.ownBids == st.ownBids || (offer.Some? && st'.ownBids == st.ownBids + [offer.value])
  {
    var hi := SearchEnd(st.lastBidSentIndex, env.progress, |st.allBids|);
    var lo := SearchStart(st);
    var best, current := ScanWindow(st, env, lo, hi);
    if best.None? {
      chosen := None;
      offer := if |st.ownBids| > 0 then Some(Last(st.ownBids)) else None;
      st' := current;
      if |st.ownBids| > 0 {
        assert Last(st.ownBids) == st.ownBids[|st.ownBids| - 1];
      }
      return;
    }
    var k := best.value;
    chosen := Some(k);
    offer := Some(st.allBids[k]);
    st' := current.(lastBidSentIndex := k, ownBids := current.ownBids + [st.allBids[k]]);
    assert st' == st.(lastBidSentIndex := k, ownBids := st.ownBids + [st.allBids[k]]);
    if OwnBidsClearReservation(st, env.profile.utility) {
      AppendKeepsOwnBidsAboveReservation(st, env.profile.utility, st.allBids[k], k);
    }
  }

  /**
   The loop of `find_bid` over positions `[lo, hi)`: the first qualifying
   candidate of highest score, if any, and the agent state after scoring every
   position, which differs only in the aggressive strategy's cursor moves.
   */
  method ScanWindow(st: AgentState, env: Environment, lo: nat, hi: nat) returns (best: Option<nat>, current: AgentState)
    requires ScorePre(st.strategy, Context(st, env))
    requires hi <= |st.allBids|
    ensures best.Some? ==> IsChosen(st, env, lo, hi, best.value)
    ensures best.None? ==> forall j :: lo <= j < hi ==> !Qualifies(st, env, j)
    ensures current == st.(lastBidSentIndex := st.lastBidSentIndex +
                             if st.strategy == AggressiveEarlyOffers then Scanned(lo, hi) else 0)
  {
    var bestScore: real := -1.0;
    best := None;
    current := st;
    var i := lo;
    while i < hi
      invariant lo <= i && (lo <= hi ==> i <= hi) && (hi < lo ==> i == lo)
      invariant current == st.(lastBidSentIndex := st.lastBidSentIndex +
                                 if st.strategy == AggressiveEarlyOffers then i - lo else 0)
      invariant best.None? ==> bestScore == -1.0 && forall j :: lo <= j < i ==> !Qualifies(st, env, j)
      invariant best.Some? ==>
                  && lo <= best.value < i
                  && Qualifies(st, env, best.value)
                  && bestScore == ScoreAt(st, env, best.value)
                  && (forall j :: lo <= j < i && Qualifies(st, env, j) ==> ScoreAt(st, env, j) <= bestScore)
                  && (forall j :: lo <= j < best.value && Qualifies(st, env, j) ==> ScoreAt(st, env, j) < bestScore)
      decreases hi - i
    {
      var bid := st.allBids[i];
      var scored := ScoreBid(current, env, bid);
      var bidScore := scored.0;
      current := scored.1;
      var ownUtility := env.profile.utility(bid);
      if bidScore > bestScore && ownUtility > st.tunables.reservation {
        bestScore := bidScore;
        best := Some(i);
      }
      i := i + 1;
    }
  }

  /** Appending a bid that clears the reservation value keeps every own offer above it. */
  lemma AppendKeepsOwnBidsAboveReservation(st: AgentState, utility: Bid -> real, b: Bid, k: nat)
    requires OwnBidsClearReservation(st, utility)
    requires utility(b) > st.tunables.reservation
    ensures OwnBidsClearReservation(st.(lastBidSentIndex := k, ownBids := st.ownBids + [b]), utility)
  {
  }

  /** A successful search offers a bid above the reservation value. */
  lemma ChosenBidClearsReservation(st: AgentState, env: Environment, lo: nat, hi: nat, k: nat)
    requires ScorePre(st.strategy, Context(st, env))
    requires IsChosen(st, env, lo, hi, k)
    ensures env.profile.utility(st.allBids[k]) > st.tunables.reservation
  {
  }

  // ---------------------------------------------------------------------------
  // Repeated exploration offers
  // ---------------------------------------------------------------------------

  /**
   `AggressiveEarlyOffersStrategy` moves the cursor on every scored bid so
   that the same bid is not sent twice in a row, but a successful `find_bid`
   overwrites the cursor with the chosen position. The next search then starts
   at that bid again, and since the bids are sorted by own utility it is chosen
   again, until `move_on` skips it after ten repeats.
   */
  method ExplorationRepeatsOffer(st: AgentState, env: Environment)
    returns (offer1: Option<Bid>, chosen1: Option<nat>, offer2: Option<Bid>)
    requires st.strategy == AggressiveEarlyOffers
    requires |st.ownBids| + 1 < RepeatLimit
    requires forall i, j :: 0 <= i < j < |st.allBids| ==>
               env.profile.utility(st.allBids[i]) >= env.profile.utility(st.allBids[j])
    ensures chosen1.Some? <==>
              exists i :: SearchStart(st) <= i < SearchEnd(st.lastBidSentIndex, env.progress, |st.allBids|) && Qualifies(st, env, i)
    ensures chosen1.Some? ==> offer1.Some? && offer2 == offer1
  {
    var st1, chosen2, st2;
    offer1, chosen1, st1 := FindBid(st, env);
    offer2, chosen2, st2 := FindBid(st1, env);
    if chosen1.Some? {
      var k := chosen1.value;
      assert !MoveOn(st1.ownBids);
      assert SearchStart(st1) == k;
      assert Qualifies(st1, env, k);
      assert chosen2.Some?;
      assert chosen2.value == k;
    }
  }

  /**
   The search with the cursor left one position past the chosen bid, as the
   aggressive strategy's cursor moves intend; otherwise as `FindBid`.
   */
  method FindBidAdvancing(st: AgentState, env: Environment) returns (offer: Option<Bid>, chosen: Option<nat>, st': AgentState)
    requires ScorePre(st.strategy, Context(st, env))
    ensures chosen.Some? ==>
              && IsChosen(st, env, SearchStart(st), SearchEnd(st.lastBidSentIndex, env.progress, |st.allBids|), chosen.value)
              && offer == Some(st.allBids[chosen.value])
              && st' == st.(lastBidSentIndex := chosen.value + 1, ownBids := st.ownBids + [st.allBids[chosen.value]])
    ensures chosen.None? ==>
              && (forall i :: SearchStart(st) <= i < SearchEnd(st.lastBidSentIndex, env.progress, |st.allBids|) ==>
                    !Qualifies(st, env, i))
              && offer == (if |st.ownBids| > 0 then Some(Last(st.ownBids)) else None)
              && st' == st.(lastBidSentIndex := st.lastBidSentIndex +
                              if st.strategy == AggressiveEarlyOffers
                              then Scanned(SearchStart(st), SearchEnd(st.lastBidSentIndex, env.progress, |st.allBids|))
                              else 0)
  {
    offer, chosen, st' := FindBid(st, env);
    if chosen.Some? {
      st' := st'.(lastBidSentIndex := chosen.value + 1);
    }
  }

  /**
   With the corrected cursor, two consecutive successful exploration searches
   over distinct bids never offer the same bid twice in a row.
   */
  method ExplorationAdvancesOffer(st: AgentState, env: Environment)
    returns (offer1: Option<Bid>, chosen1: Option<nat>, st1: AgentState, offer2: Option<Bid>, chosen2: Option<nat>)
    requires st.strategy == AggressiveEarlyOffers
    requires forall i, j :: 0 <= i < j < |st.allBids| ==> st.allBids[i] != st.allBids[j]
    ensures st1.strategy == AggressiveEarlyOffers
    ensures chosen1.Some? <==>
              exists i :: SearchStart(st) <= i < SearchEnd(st.lastBidSentIndex, env.progress, |st.allBids|) && Qualifies(st, env, i)
    ensures chosen2.Some? <==>
              exists i :: SearchStart(st1) <= i < SearchEnd(st1.lastBidSentIndex, env.progress, |st1.allBids|) && Qualifies(st1, env, i)
    ensures chosen1.Some? && chosen2.Some? ==> offer1.Some? && offer2.Some? && offer2.value != offer1.value
  {
    var st2;
    offer1, chosen1, st1 := FindBidAdvancing(st, env);
    offer2, chosen2, st2 := FindBidAdvancing(st1, env);
    if chosen1.Some? && chosen2.Some? {
      assert chosen1.value < chosen2.value;
    }
  }
}

=== FILE: aggressive_early_offers.dfy ===
/**
 The strategy used while exploring, before the opponent is classified: score a
 bid by the agent's own utility alone, and move the search cursor one position
 on each time a bid is scored.
 */
module AggressiveEarlyOffers {
  import opened Types

  /**
   Scores `bid` and returns the advanced cursor alongside the score; the
   cursor is the only piece of agent state the scoring touches.
   */
  function ScoreBid(ctx: ScoringContext, cursor: nat, bid: Bid): (r: (real, nat))
    ensures r.0 == ctx.profile.utility(bid)
    ensures r.1 == cursor + 1
  {
    (ctx.profile.utility(bid), cursor + 1)
  }

  /**
   The score depends on the own utility of the bid only: not on the opponent
   model, the time pressure, the offer histories or the cursor.
   */
  lemma ScoreIgnoresEverythingElse(c1: ScoringContext, c2: ScoringContext, i1: nat, i2: nat, bid: Bid)
    requires c1.profile.utility(bid) == c2.profile.utility(bid)
    ensures ScoreBid(c1, i1, bid).0 == ScoreBid(c2, i2, bid).0
  {
  }
}

=== FILE: continued_concessions.dfy ===
/**
 The concession-matching strategy: once the agent has made more than two
 offers, only a bid that concedes own utility while giving the opponent more
 than the agent's last offer did is worth anything, and it is worth its
 social-welfare score.
 */
module ContinuedConcessions {
  import opened Types

  /**
   Scores `bid`. The opponent model is dereferenced without a check once more
   than two own offers exist, so the caller must have one by then.
   */
  function ScoreBid(ctx: ScoringContext, bid: Bid): (r: real)
    requires |ctx.ownBids| >= MinOwnBids ==> ctx.hasModel
    ensures |ctx.ownBids| < MinOwnBids ==> r == ctx.profile.utility(bid)
    ensures |ctx.ownBids| >= MinOwnBids ==>
              var last := Last(ctx.ownBids);
              && (ctx.profile.utility(bid) >= ctx.profile.utility(last) ==> r == 0.0)
              && (ctx.opponent.predicted(bid) <= ctx.opponent.predicted(last) ==> r == 0.0)
              && ((ctx.profile.utility(bid) < ctx.profile.utility(last)
                   && ctx.opponent.predicted(bid) > ctx.opponent.predicted(last)) ==> r == ctx.welfare(bid))
  {
    if |ctx.ownBids| > 2 then
      var last := Last(ctx.ownBids);
      var ownDelta := ctx.profile.utility(bid) - ctx.profile.utility(last);
      var opponentDelta := ctx.opponent.predicted(bid) - ctx.opponent.predicted(last);
      if ownDelta >= 0.0 || opponentDelta <= 0.0 then 0.0
      else ctx.welfare(bid)
    else
      ctx.profile.utility(bid)
  }

  /** Offering the last own bid again is no concession and scores 0. */
  lemma RepeatScoresZero(ctx: ScoringContext)
    requires |ctx.ownBids| >= MinOwnBids && ctx.hasModel
    ensures ScoreBid(ctx, Last(ctx.ownBids)) == 0.0
  {
  }

  /**
   A score that is neither 0 nor the plain own utility can only come from a
   strict mutual concession against the last own offer.
   */
  lemma UnusualScoreMeansConcession(ctx: ScoringContext, bid: Bid)
    requires |ctx.ownBids| >= MinOwnBids ==> ctx.hasModel
    requires ScoreBid(ctx, bid) != 0.0 && ScoreBid(ctx, bid) != ctx.profile.utility(bid)
    ensures |ctx.ownBids| >= MinOwnBids
    ensures ctx.profile.utility(bid) < ctx.profile.utility(Last(ctx.ownBids))
    ensures ctx.opponent.predicted(bid) > ctx.opponent.predicted(Last(ctx.ownBids))
  {
  }
}

=== FILE: continued_smaller_concessions.dfy ===
/**
 The reciprocal variant of concession matching: the same concession gate, but
 a bid that passes it is scored by an inline social-welfare blend
 `alpha * tp * U + (1 - alpha * tp) * V`, `tp` being the time pressure.
 */
module ContinuedSmallerConcessions {
  import opened Types

  /** The blend of own utility `u` and opponent utility `v` with own weight `w`. */
  function Blend(w: real, u: real, v: real): real
  {
    w * u + (1.0 - w) * v
  }

  /**
   Scores `bid`. The opponent model is read for the concession gate before the
   code checks whether it exists, so the model must exist once more than two
   own offers are on record, and the later check always succeeds.
   */
  function ScoreBid(ctx: ScoringContext, bid: Bid): (r: real)
    requires |ctx.ownBids| >= MinOwnBids ==> ctx.hasModel
    ensures |ctx.ownBids| < MinOwnBids ==> r == ctx.profile.utility(bid)
    ensures |ctx.ownBids| >= MinOwnBids ==>
              var last := Last(ctx.ownBids);
              if ctx.profile.utility(bid) >= ctx.profile.utility(last)
                 || ctx.opponent.predicted(bid) <= ctx.opponent.predicted(last)
              then r == 0.0
              else r == Blend(ctx.alpha * ctx.timePressure, ctx.profile.utility(bid), ctx.opponent.predicted(bid))
  {
    if |ctx.ownBids| > 2 then
      var last := Last(ctx.ownBids);
      var ownDelta := ctx.profile.utility(bid) - ctx.profile.utility(last);
      var opponentDelta := ctx.opponent.predicted(bid) - ctx.opponent.predicted(last);
      if ownDelta >= 0.0 || opponentDelta <= 0.0 then 0.0
      else
        var ourUtility := ctx.profile.utility(bid);
        var score := ctx.alpha * ctx.timePressure * ourUtility;
        if ctx.hasModel then
          score + (1.0 - ctx.alpha * ctx.timePressure) * ctx.opponent.predicted(bid)
        else
          score
    else
      ctx.profile.utility(bid)
  }

  /** With a weight in [0, 1] the blend lies between its two utilities. */
  lemma BlendBetween(w: real, u: real, v: real)
    requires 0.0 <= w <= 1.0
    ensures u <= v ==> u <= Blend(w, u, v) <= v
    ensures v <= u ==> v <= Blend(w, u, v) <= u
  {
    var d := u - v;
    assert Blend(w, u, v) == v + w * d;
    assert w * d + (1.0 - w) * d == d;
    if u <= v {
      assert w * (-d) >= 0.0 && (1.0 - w) * (-d) >= 0.0;
    } else {
      assert w * d >= 0.0 && (1.0 - w) * d >= 0.0;
    }
  }

  /**
   When `alpha * tp` is in [0, 1] and both utilities are in [0, 1], a bid that
   passes the concession gate scores within [0, 1], between its two utilities.
   */
  lemma ScoreWithinUnitRange(ctx: ScoringContext, bid: Bid)
    requires |ctx.ownBids| >= MinOwnBids && ctx.hasModel
    requires 0.0 <= ctx.alpha * ctx.timePressure <= 1.0
    requires 0.0 <= ctx.profile.utility(bid) <= 1.0 && 0.0 <= ctx.opponent.predicted(bid) <= 1.0
    ensures 0.0 <= ScoreBid(ctx, bid) <= 1.0
    ensures ScoreBid(ctx, bid) != 0.0 ==>
              ScoreBid(ctx, bid) >= ctx.profile.utility(bid) || ScoreBid(ctx, bid) >= ctx.opponent.predicted(bid)
  {
    var u, v := ctx.profile.utility(bid), ctx.opponent.predicted(bid);
    BlendBetween(ctx.alpha * ctx.timePressure, u, v);
    var last := Last(ctx.ownBids);
    if u < ctx.profile.utility(last) && v > ctx.opponent.predicted(last) {
      assert ScoreBid(ctx, bid) == Blend(ctx.alpha * ctx.timePressure, u, v);
    }
  }
}

=== FILE: enums.dfy ===
/** The three classification enums of the agent. */
module Enums {

  /** How fair the opponent's last offer was. */
  datatype Fairness = Fair | Unfair

  /** Short-term trend of the opponent, from its last two offers. */
  datatype Stance = Greedy | Neutral | Generous

  /** The opponent's archetype; `Unknown` until classification has run. */
  datatype NegotiationType = Conceder | Hardliner | Random | Unknown
}

=== FILE: logrolling.dfy ===
/**
 The logrolling strategy: settle the issue the agent cares most about on its
 own best value and the opponent's target issue on the value the opponent
 offers most often; any bid that does not match both is worth nothing, any bid
 that does is worth its social-welfare score.
 */
module Logrolling {
  import opened Types
  import opened Sorting

  /** The search objective: target value per target issue; `None` for a target with no value. */
  type Objective = map<Issue, Option<Value>>

  function Weight(p: (Issue, real)): real { p.1 }
  function NegWeight(p: (Issue, real)): real { -p.1 }
  function Count(p: (Value, int)): real { p.1 as real }
  function Admit(p: (Issue, real)): bool { true }

  /**
   The first issue of the own weights sorted in descending order of weight:
   the first issue, in profile order, whose weight is maximal.
   */
  function OwnTargetIssue(weights: seq<(Issue, real)>): (r: Issue)
    requires |weights| > 0
    ensures exists k :: 0 <= k < |weights| && r == weights[k].0
              && (forall j :: 0 <= j < |weights| ==> weights[j].1 <= weights[k].1)
              && (forall j :: 0 <= j < k ==> weights[j].1 < weights[k].1)
  {
    var sorted := SortDesc(weights, Weight);
    assert Admit(weights[0]);
    FirstKeptOfSorted(weights, Weight, Admit);
    assert FirstKept(sorted, Admit) == sorted[0];
    sorted[0].0
  }

  /** Some estimated issue differs from `own`, so the opponent target issue exists. */
  predicate HasOtherIssue(weights: seq<(Issue, real)>, own: Issue)
  {
    exists k :: 0 <= k < |weights| && weights[k].0 != own
  }

  /**
   The first issue different from `own` in the opponent's estimated weights
   sorted in ascending order of weight: an issue of least opponent weight among
   those other than `own`, and the first such in estimator order.
   */
  function OpponentTargetIssue(weights: seq<(Issue, real)>, own: Issue): (r: Issue)
    requires HasOtherIssue(weights, own)
    ensures r != own
    ensures exists k :: 0 <= k < |weights| && r == weights[k].0
              && (forall j :: 0 <= j < |weights| && weights[j].0 != own ==> weights[k].1 <= weights[j].1)
              && (forall j :: 0 <= j < k && weights[j].0 != own ==> weights[j].1 > weights[k].1)
  {
    var other := (p: (Issue, real)) => p.0 != own;
    var ascending := SortDesc(weights, NegWeight);
    FirstKeptOfSorted(weights, NegWeight, other);
    FirstKept(ascending, other).0
  }

  /**
   The agent's value for its target issue: the first value, in domain order,
   whose own value utility is maximal, provided it exceeds -1.
   */
  function OwnTargetValue(profile: Profile, issue: Issue): (r: Option<Value>)
    ensures r.None? <==> forall j :: 0 <= j < |profile.values(issue)| ==> profile.valueUtility(issue, profile.values(issue)[j]) <= -1.0
    ensures r.Some? ==>
              (exists k :: 0 <= k < |profile.values(issue)| && r.value == profile.values(issue)[k]
                 && (forall j :: 0 <= j < |profile.values(issue)| ==>
                       profile.valueUtility(issue, profile.values(issue)[j]) <= profile.valueUtility(issue, r.value))
                 && (forall j :: 0 <= j < k ==>
                       profile.valueUtility(issue, profile.values(issue)[j]) < profile.valueUtility(issue, r.value)))
  {
    var values := profile.values(issue);
    var utility := (v: Value) => profile.valueUtility(issue, v);
    match ArgMaxAbove(values, utility, -1.0)
    case None => None
    case Some(k) => Some(values[k])
  }

  /**
   The opponent's value for its target issue: the first tracked value with the
   greatest count; `None` (the empty string of `get_search_objective`) when nothing is tracked.
   */
  function OpponentTargetValue(trackers: seq<(Value, int)>): (r: Option<Value>)
    ensures r.None? <==> forall j :: 0 <= j < |trackers| ==> trackers[j].1 < 0
    ensures r.Some? ==>
              (exists k :: 0 <= k < |trackers| && r.value == trackers[k].0
                 && (forall j :: 0 <= j < |trackers| ==> trackers[j].1 <= trackers[k].1)
                 && (forall j :: 0 <= j < k ==> trackers[j].1 < trackers[k].1))
  {
    match ArgMaxAbove(trackers, Count, -1.0)
    case None => None
    case Some(k) => Some(trackers[k].0)
  }

  /** The search objective can be computed: `get_search_objective` raises on anything else. */
  predicate ObjectiveDefined(ctx: ScoringContext)
  {
    |ctx.profile.weights| > 0 && HasOtherIssue(ctx.opponent.weights, OwnTargetIssue(ctx.profile.weights))
  }

  function OwnIssue(ctx: ScoringContext): Issue
    requires ObjectiveDefined(ctx)
  {
    OwnTargetIssue(ctx.profile.weights)
  }

  function OpponentIssue(ctx: ScoringContext): Issue
    requires ObjectiveDefined(ctx)
  {
    OpponentTargetIssue(ctx.opponent.weights, OwnIssue(ctx))
  }

  /** The two (issue, value) targets as a dictionary with exactly two keys. */
  function SearchObjective(ctx: ScoringContext): (r: Objective)
    requires ObjectiveDefined(ctx)
    ensures r.Keys == {OwnIssue(ctx), OpponentIssue(ctx)}
    ensures |r.Keys| == 2
    ensures r[OwnIssue(ctx)] == OwnTargetValue(ctx.profile, OwnIssue(ctx))
    ensures r[OpponentIssue(ctx)] == OpponentTargetValue(ctx.opponent.trackers(OpponentIssue(ctx)))
  {
    var own := OwnIssue(ctx);
    var opponent := OpponentIssue(ctx);
    assert {own, opponent} == {own} + {opponent};
    map[own := OwnTargetValue(ctx.profile, own),
        opponent := OpponentTargetValue(ctx.opponent.trackers(opponent))]
  }

  /** `bid.getValue(issue) == value` for every pair of the objective; a missing value never matches. */
  predicate Satisfies(bid: Bid, objective: Objective)
  {
    forall issue | issue in objective :: objective[issue].Some? && ValueOf(bid, issue) == objective[issue]
  }

  /** Whether `bid` carries the target value on one target issue. */
  predicate Hits(bid: Bid, issue: Issue, target: Option<Value>)
  {
    target.Some? && issue in bid && bid[issue] == target.value
  }

  /** Satisfying a two-key objective is hitting both of its targets. */
  lemma SatisfiesBoth(bid: Bid, objective: Objective, own: Issue, opponent: Issue)
    requires objective.Keys == {own, opponent}
    ensures Satisfies(bid, objective) <==> Hits(bid, own, objective[own]) && Hits(bid, opponent, objective[opponent])
  {
    if Hits(bid, own, objective[own]) && Hits(bid, opponent, objective[opponent]) {
      forall issue | issue in objective
        ensures objective[issue].Some? && ValueOf(bid, issue) == objective[issue]
      {
        assert issue == own || issue == opponent;
      }
    }
  }

  /** Scores `bid`: own utility before there is an opponent model, else the objective gate. */
  function ScoreBid(ctx: ScoringContext, bid: Bid): (r: real)
    requires ctx.hasModel ==> ObjectiveDefined(ctx)
    ensures !ctx.hasModel ==> r == ctx.profile.utility(bid)
    ensures ctx.hasModel ==>
              var own := OwnIssue(ctx);
              var opponent := OpponentIssue(ctx);
              r == if Hits(bid, own, OwnTargetValue(ctx.profile, own))
                      && Hits(bid, opponent, OpponentTargetValue(ctx.opponent.trackers(opponent)))
                   then ctx.welfare(bid) else 0.0
  {
    if !ctx.hasModel then ctx.profile.utility(bid)
    else
      var objective := SearchObjective(ctx);
      SatisfiesBoth(bid, objective, OwnIssue(ctx), OpponentIssue(ctx));
      if Satisfies(bid, objective) then ctx.welfare(bid) else 0.0
  }

  /** With no value tracked for the opponent's target issue, every bid scores 0. */
  lemma EmptyTrackerScoresZero(ctx: ScoringContext, bid: Bid)
    requires ctx.hasModel && ObjectiveDefined(ctx)
    requires ctx.opponent.trackers(OpponentIssue(ctx)) == []
    ensures ScoreBid(ctx, bid) == 0.0
  {
  }

  /** Two distinct estimated issues are enough for the objective to exist. */
  lemma TwoIssuesSuffice(ctx: ScoringContext, i: nat, j: nat)
    requires |ctx.profile.weights| > 0
    requires i < |ctx.opponent.weights| && j < |ctx.opponent.weights|
    requires ctx.opponent.weights[i].0 != ctx.opponent.weights[j].0
    ensures ObjectiveDefined(ctx)
  {
    var own := OwnTargetIssue(ctx.profile.weights);
    if ctx.opponent.weights[i].0 == own {
      assert ctx.opponent.weights[j].0 != own;
    }
  }
}

=== FILE: opponent_signals.dfy ===
/**
 The signals the agent derives from the opponent's offers: the one-shot
 archetype classifier, the archetype's hyperparameters, and the fairness and
 stance trackers that are refreshed on every offer.
 */
module OpponentSignals {
  import opened Types
  import opened Enums

  /** Share of the negotiation time spent exploring before classifying. */
  const ExplorationTimeLimit: real := 0.1

  // ---------------------------------------------------------------------------
  // Archetype classifier
  // ---------------------------------------------------------------------------

  function IsPositive(d: real): bool { d > 0.0 }
  function IsNegative(d: real): bool { d < 0.0 }

  /** The `i`-th entry of `np.diff(u)`. */
  function Diff(u: seq<real>, i: int): real
    requires 0 <= i < |u| - 1
  {
    u[i + 1] - u[i]
  }

  /** How many entries of `np.diff(u)` the predicate admits. */
  function CountDiffs(u: seq<real>, admit: real -> bool): nat
  {
    if |u| < 2 then 0
    else CountDiffs(u[..|u| - 1], admit) + (if admit(Diff(u, |u| - 2)) then 1 else 0)
  }

  /** The positions of the admitted differences, as a set. */
  ghost function DiffSet(u: seq<real>, admit: real -> bool): set<int>
  {
    set i | 0 <= i < |u| - 1 && admit(Diff(u, i))
  }

  /** The recursive count is the size of the set of admitted positions. */
  lemma {:induction false} CountDiffsIsSetSize(u: seq<real>, admit: real -> bool)
    ensures CountDiffs(u, admit) == |DiffSet(u, admit)|
    decreases |u|
  {
    if |u| >= 2 {
      var p := u[..|u| - 1];
      CountDiffsIsSetSize(p, admit);
      var last := |u| - 2;
      forall i | 0 <= i < last
        ensures Diff(p, i) == Diff(u, i)
      {
      }
      var extra: set<int> := if admit(Diff(u, last)) then {last} else {};
      assert DiffSet(u, admit) == DiffSet(p, admit) + extra;
      assert last !in DiffSet(p, admit);
    } else {
      assert DiffSet(u, admit) == {};
    }
  }

  /** A difference is positive or negative, never both: the two counts share the `|u| - 1` differences. */
  lemma {:induction false} RisesAndFallsBounded(u: seq<real>)
    requires |u| >= 1
    ensures CountDiffs(u, IsPositive) + CountDiffs(u, IsNegative) <= |u| - 1
    decreases |u|
  {
    if |u| >= 2 {
      RisesAndFallsBounded(u[..|u| - 1]);
    }
  }

  /** `int(0.45 * n)`: the least number of rises and of falls that a Random opponent exceeds. */
  function RandomThreshold(n: nat): nat
  {
    (45 * n) / 100
  }

  /**
   Classifies the opponent from the own utilities of all of its offers so far:
   Random when both the rises and the falls exceed `int(0.45 * n)`, n being the
   number of utilities; otherwise Conceder when the utility grew by more than
   0.15 from the first offer to the last; otherwise Hardliner.
   */
  function Classify(u: seq<real>): (r: NegotiationType)
    requires |u| >= 1
    ensures r != Unknown
    ensures r == Random <==>
              |DiffSet(u, IsPositive)| > RandomThreshold(|u|) && |DiffSet(u, IsNegative)| > RandomThreshold(|u|)
    ensures r == Conceder ==> u[|u| - 1] > u[0] + 0.15
    ensures r == Hardliner ==> u[|u| - 1] <= u[0] + 0.15
  {
    CountDiffsIsSetSize(u, IsPositive);
    CountDiffsIsSetSize(u, IsNegative);
    var threshold := RandomThreshold(|u|);
    if CountDiffs(u, IsPositive) > threshold && CountDiffs(u, IsNegative) > threshold then Random
    else if u[|u| - 1] - u[0] > 0.15 then Conceder
    else Hardliner
  }

  /**
   Because the threshold is taken from the number of utilities rather than the
   number of differences, no history shorter than 11 offers is classified Random.
   */
  lemma RandomNeedsElevenOffers(u: seq<real>)
    requires |u| >= 1
    ensures Classify(u) == Random ==> |u| >= 11
  {
    RisesAndFallsBounded(u);
    if |u| <= 10 {
      var n := |u|;
      assert 2 * RandomThreshold(n) + 2 > n - 1 by {
        assert n == 1 || n == 2 || n == 3 || n == 4 || n == 5 || n == 6 || n == 7 || n == 8 || n == 9 || n == 10;
      }
    }
  }

  /** A history that never falls cannot be Random. */
  lemma NoFallsIsNotRandom(u: seq<real>)
    requires |u| >= 1
    requires forall i :: 0 <= i < |u| - 1 ==> u[i] <= u[i + 1]
    ensures Classify(u) != Random
  {
    assert CountDiffs(u, IsNegative) == 0 by {
      CountDiffsIsSetSize(u, IsNegative);
      assert DiffSet(u, IsNegative) == {};
    }
  }

  /** An opponent whose offers are all worth the same to the agent is a Hardliner. */
  lemma ConstantHistoryIsHardliner(u: seq<real>)
    requires |u| >= 1
    requires forall i :: 0 <= i < |u| ==> u[i] == u[0]
    ensures Classify(u) == Hardliner
  {
    NoFallsIsNotRandom(u);
  }

  /** A single offer gives no differences and no drift: Hardliner. */
  lemma SingleOfferIsHardliner(x: real)
    ensures Classify([x]) == Hardliner
  {
  }

  /**
   The alternating history 0.2, 0.8, 0.1, 0.9, 0.15, 0.85 rises three times and
   falls twice; the threshold int(0.45 * 6) is 2, so it is not Random, and its
   drift of 0.65 makes it a Conceder.
   */
  lemma AlternatingSixIsConceder()
    ensures Classify([0.2, 0.8, 0.1, 0.9, 0.15, 0.85]) == Conceder
  {
    var u := [0.2, 0.8, 0.1, 0.9, 0.15, 0.85];
    assert CountDiffs(u, IsNegative) == 2 by {
      var u2, u3, u4, u5 := [0.2, 0.8], [0.2, 0.8, 0.1], [0.2, 0.8, 0.1, 0.9], [0.2, 0.8, 0.1, 0.9, 0.15];
      assert u3[..2] == u2 && u4[..3] == u3 && u5[..4] == u4 && u[..5] == u5;
      assert CountDiffs(u2, IsNegative) == 0;
      assert CountDiffs(u3, IsNegative) == 1;
      assert CountDiffs(u4, IsNegative) == 1;
      assert CountDiffs(u5, IsNegative) == 2;
    }
  }

  /** A steadily improving history with drift 0.6 is a Conceder. */
  lemma RisingHistoryIsConceder()
    ensures Classify([0.3, 0.5, 0.7, 0.9]) == Conceder
  {
    NoFallsIsNotRandom([0.3, 0.5, 0.7, 0.9]);
  }

  // ---------------------------------------------------------------------------
  // Hyperparameters per archetype
  // ---------------------------------------------------------------------------

  /** The scoring hyperparameters: selfishness weight, reservation value, time-pressure exponent. */
  datatype Tunables = Tunables(alpha: real, reservation: real, eps: real)

  /** The hyperparameters the agent starts with, before any classification. */
  const InitialTunables: Tunables := Tunables(0.95, 0.8, 0.1)

  /** Sets the hyperparameters for a classified archetype; Unknown keeps the current ones. */
  function AdjustByType(t: NegotiationType, current: Tunables): (r: Tunables)
    ensures t == Unknown ==> r == current
    ensures t == Conceder ==> r == Tunables(0.95, 0.75, 0.1)
    ensures t == Random ==> r == Tunables(0.875, 0.70, 0.15)
    ensures t == Hardliner ==> r == Tunables(0.80, 0.65, 0.2)
  {
    match t
    case Conceder => Tunables(0.95, 0.75, 0.1)
    case Random => Tunables(0.875, 0.70, 0.15)
    case Hardliner => Tunables(0.80, 0.65, 0.2)
    case Unknown => current
  }

  /**
   The tougher the opponent looks, the more the agent gives way: against a
   Conceder it is most selfish and holds the highest reservation value with the
   least time pressure, against a Hardliner the reverse, Random in between.
   */
  lemma ConcessionGrowsWithToughness(c: Tunables)
    ensures AdjustByType(Conceder, c).alpha > AdjustByType(Random, c).alpha > AdjustByType(Hardliner, c).alpha
    ensures AdjustByType(Conceder, c).reservation > AdjustByType(Random, c).reservation
              > AdjustByType(Hardliner, c).reservation
    ensures AdjustByType(Conceder, c).eps < AdjustByType(Random, c).eps < AdjustByType(Hardliner, c).eps
  {
  }

  // ---------------------------------------------------------------------------
  // Fairness and stance
  // ---------------------------------------------------------------------------

  /**
   Fairness of the opponent's last offer from the agent's utility and the
   predicted opponent utility of that offer.
   */
  function AdjustFairness(ownUtility: real, opponentUtility: real): (r: Fairness)
    ensures opponentUtility <= 0.5 ==> r == Fair
    ensures r == Unfair <==> Abs(ownUtility - opponentUtility) > 0.4 && opponentUtility > 0.5
  {
    var isFair := Abs(ownUtility - opponentUtility) <= 0.4 || opponentUtility <= 0.5;
    if isFair then Fair else Unfair
  }

  /**
   Stance from the predicted opponent utility of the last two opponent offers;
   with fewer than two offers the previous stance is kept.
   */
  function AdjustStance(previous: Stance, offers: seq<Bid>, predicted: Bid -> real): (r: Stance)
    ensures |offers| < 2 ==> r == previous
    ensures |offers| >= 2 ==>
              var last := predicted(offers[|offers| - 1]);
              var beforeLast := predicted(offers[|offers| - 2]);
              && (r == Generous <==> last > beforeLast)
              && (r == Neutral <==> last == beforeLast)
              && (r == Greedy <==> last < beforeLast)
  {
    if |offers| < 2 then previous
    else
      var delta := predicted(offers[|offers| - 1]) - predicted(offers[|offers| - 2]);
      if delta > 0.0 then Generous
      else if delta == 0.0 then Neutral
      else Greedy
  }

  /** Two identical consecutive offers make the opponent Neutral. */
  lemma RepeatedOfferIsNeutral(previous: Stance, offers: seq<Bid>, predicted: Bid -> real)
    requires |offers| >= 2 && offers[|offers| - 1] == offers[|offers| - 2]
    ensures AdjustStance(previous, offers, predicted) == Neutral
  {
  }
}

=== FILE: respond_to_extreme_offer.dfy ===
/**
 The extreme-offer response: refuse to fall more than a margin below what the
 opponent's last offer apparently gives the opponent, and otherwise prefer the
 bid whose own utility mirrors that level most closely.
 */
module RespondToExtremeOffer {
  import opened Types

  /** How far below the opponent's last apparent utility a bid may still fall. */
  const Delta: real := 0.03

  /** Predicted opponent utility of the opponent's last offer. */
  function LastOfferLevel(ctx: ScoringContext): real
    requires |ctx.offers| >= 1
  {
    ctx.opponent.predicted(Last(ctx.offers))
  }

  /** Whether the strategy has an opponent offer to respond to. */
  predicate Responding(ctx: ScoringContext)
  {
    ctx.hasModel && |ctx.offers| >= 1
  }

  function ScoreBid(ctx: ScoringContext, bid: Bid): (r: real)
    ensures !Responding(ctx) ==> r == ctx.profile.utility(bid)
    ensures Responding(ctx) && ctx.profile.utility(bid) + Delta < LastOfferLevel(ctx) ==> r == 0.0
    ensures Responding(ctx) && ctx.profile.utility(bid) + Delta >= LastOfferLevel(ctx) ==>
              r + Abs(ctx.profile.utility(bid) - LastOfferLevel(ctx)) == 1.0
  {
    var ownUtility := ctx.profile.utility(bid);
    if !ctx.hasModel || |ctx.offers| < 1 then ownUtility
    else
      var opponentUtilityLastBid := ctx.opponent.predicted(ctx.offers[|ctx.offers| - 1]);
      if ownUtility < opponentUtilityLastBid - Delta then 0.0
      else 1.0 - Abs(ownUtility - opponentUtilityLastBid)
  }

  /** A bid exactly at the margin is still admitted, and scores 0.97. */
  lemma MarginIsAdmitted(ctx: ScoringContext, bid: Bid)
    requires Responding(ctx)
    requires ctx.profile.utility(bid) == LastOfferLevel(ctx) - Delta
    ensures ScoreBid(ctx, bid) == 0.97
  {
  }

  /**
   With utilities in [0, 1] every score lies in [0, 1], and an admitted bid
   scores 1 exactly when its own utility equals the opponent's last level.
   */
  lemma ScoreInUnitRange(ctx: ScoringContext, bid: Bid)
    requires Responding(ctx)
    requires 0.0 <= ctx.profile.utility(bid) <= 1.0 && 0.0 <= LastOfferLevel(ctx) <= 1.0
    ensures 0.0 <= ScoreBid(ctx, bid) <= 1.0
    ensures ScoreBid(ctx, bid) == 1.0 <==> ctx.profile.utility(bid) == LastOfferLevel(ctx)
  {
  }

  /** Among admitted bids, the closer the own utility to the opponent's level, the higher the score. */
  lemma CloserScoresHigher(ctx: ScoringContext, b1: Bid, b2: Bid)
    requires Responding(ctx)
    requires ctx.profile.utility(b1) + Delta >= LastOfferLevel(ctx)
    requires ctx.profile.utility(b2) + Delta >= LastOfferLevel(ctx)
    requires Abs(ctx.profile.utility(b1) - LastOfferLevel(ctx)) < Abs(ctx.profile.utility(b2) - LastOfferLevel(ctx))
    ensures ScoreBid(ctx, b1) > ScoreBid(ctx, b2)
  {
  }
}

=== FILE: sorting.dfy ===
/**
 Ordering helpers shared by the agent.

 `SortDesc` models Python's `list.sort(key=..., reverse=True)` and
 `sorted(..., reverse=True)`: a stable sort by a real key, greatest key first,
 elements with equal keys keeping their original order. An ascending stable
 sort is `SortDesc` with the key negated.

 `ArgMaxAbove` models the two scans in `get_search_objective`, both of the form
 `best = floor; for x in s: if key(x) > best: best, choice = key(x), x`.
 */
module Sorting {
  import opened Types

  /** Keys never increase from left to right. */
  ghost predicate SortedDesc<T>(s: seq<T>, key: T -> real)
  {
    forall i, j :: 0 <= i < j < |s| ==> key(s[i]) >= key(s[j])
  }

  /** Inserts `x` in front of the first element whose key is not greater than its own. */
  function Insert<T>(x: T, s: seq<T>, key: T -> real): (r: seq<T>)
    ensures multiset(r) == multiset(s) + multiset{x}
    ensures |r| == |s| + 1
  {
    if |s| == 0 || key(x) >= key(s[0]) then [x] + s
    else
      assert s == [s[0]] + s[1..];
      [s[0]] + Insert(x, s[1..], key)
  }

  /** Inserting an element no greater than `b` into a sequence bounded by `b` keeps the bound. */
  lemma {:induction false} InsertBelow<T>(x: T, s: seq<T>, key: T -> real, b: real)
    requires key(x) <= b
    requires forall k :: 0 <= k < |s| ==> key(s[k]) <= b
    ensures forall k :: 0 <= k < |Insert(x, s, key)| ==> key(Insert(x, s, key)[k]) <= b
  {
    if |s| == 0 || key(x) >= key(s[0]) {
      assert forall k :: 0 < k < |s| + 1 ==> ([x] + s)[k] == s[k - 1];
    } else {
      var t := s[1..];
      InsertBelow(x, t, key, b);
      var r := Insert(x, t, key);
      assert forall k :: 0 < k < |r| + 1 ==> ([s[0]] + r)[k] == r[k - 1];
    }
  }

  lemma {:induction false} InsertSorted<T>(x: T, s: seq<T>, key: T -> real)
    requires SortedDesc(s, key)
    ensures SortedDesc(Insert(x, s, key), key)
  {
    if |s| == 0 || key(x) >= key(s[0]) {
      forall j | 0 < j < |s| + 1
        ensures key(x) >= key(([x] + s)[j])
      {
        assert ([x] + s)[j] == s[j - 1];
      }
    } else {
      var t := s[1..];
      InsertSorted(x, t, key);
      assert forall k :: 0 <= k < |t| ==> t[k] == s[k + 1];
      InsertBelow(x, t, key, key(s[0]));
      var r := Insert(x, t, key);
      forall i, j | 0 <= i < j < |r| + 1
        ensures key(([s[0]] + r)[i]) >= key(([s[0]] + r)[j])
      {
        assert ([s[0]] + r)[j] == r[j - 1];
        if i > 0 {
          assert ([s[0]] + r)[i] == r[i - 1];
        }
      }
    }
  }

  /** Stable descending sort, by repeated insertion from the back. */
  function SortDesc<T>(s: seq<T>, key: T -> real): (r: seq<T>)
    ensures multiset(r) == multiset(s)
    ensures |r| == |s|
    ensures SortedDesc(r, key)
  {
    if |s| == 0 then []
    else
      var t := SortDesc(s[1..], key);
      InsertSorted(s[0], t, key);
      assert s == [s[0]] + s[1..];
      Insert(s[0], t, key)
  }

  ghost predicate HasKept<T>(s: seq<T>, keep: T -> bool)
  {
    exists i :: 0 <= i < |s| && keep(s[i])
  }

  /** The first element that `keep` admits, in sequence order. */
  function FirstKept<T>(s: seq<T>, keep: T -> bool): (r: T)
    requires exists i :: 0 <= i < |s| && keep(s[i])
    ensures keep(r)
    ensures exists i :: 0 <= i < |s| && s[i] == r && forall j :: 0 <= j < i ==> !keep(s[j])
  {
    if keep(s[0]) then s[0]
    else
      assert exists i :: 0 <= i < |s[1..]| && keep(s[1..][i]) by {
        var i :| 0 <= i < |s| && keep(s[i]);
        assert s[1..][i - 1] == s[i];
      }
      var r := FirstKept(s[1..], keep);
      assert exists i :: 0 <= i < |s| && s[i] == r && forall j :: 0 <= j < i ==> !keep(s[j]) by {
        var m :| 0 <= m < |s[1..]| && s[1..][m] == r && forall j :: 0 <= j < m ==> !keep(s[1..][j]);
        assert s[m + 1] == r;
        assert forall j :: 1 <= j < m + 1 ==> s[j] == s[1..][j - 1];
      }
      r
  }

  /**
   `s[k]` is the first element admitted by `keep` whose key is maximal among
   the admitted elements.
   */
  ghost predicate IsFirstBest<T>(s: seq<T>, key: T -> real, keep: T -> bool, k: int)
  {
    && 0 <= k < |s|
    && keep(s[k])
    && (forall j :: 0 <= j < |s| && keep(s[j]) ==> key(s[j]) <= key(s[k]))
    && (forall j :: 0 <= j < k && keep(s[j]) ==> key(s[j]) < key(s[k]))
  }

  lemma HasKeptPermutation<T>(s: seq<T>, t: seq<T>, keep: T -> bool)
    requires multiset(s) == multiset(t)
    requires HasKept(s, keep)
    ensures HasKept(t, keep)
  {
    var i :| 0 <= i < |s| && keep(s[i]);
    assert s[i] in multiset(t);
    var m :| 0 <= m < |t| && t[m] == s[i];
  }

  /** Where inserting `x` leaves the first admitted element of a sorted sequence. */
  lemma {:induction false} InsertFirstKept<T>(x: T, t: seq<T>, key: T -> real, keep: T -> bool)
    requires SortedDesc(t, key)
    requires keep(x) || HasKept(t, keep)
    ensures HasKept(Insert(x, t, key), keep)
    ensures FirstKept(Insert(x, t, key), keep) ==
              if !keep(x) then FirstKept(t, keep)
              else if !HasKept(t, keep) || key(x) >= key(FirstKept(t, keep)) then x
              else FirstKept(t, keep)
  {
    var r := Insert(x, t, key);
    if |t| == 0 || key(x) >= key(t[0]) {
      assert r == [x] + t;
      assert r[1..] == t;
      if keep(x) {
        assert r[0] == x;
        if HasKept(t, keep) {
          var f := FirstKept(t, keep);
          var m :| 0 <= m < |t| && t[m] == f;
          assert m == 0 || key(t[0]) >= key(t[m]);
        }
      } else {
        var i :| 0 <= i < |t| && keep(t[i]);
        assert r[i + 1] == t[i];
      }
    } else {
      var t' := t[1..];
      assert r == [t[0]] + Insert(x, t', key);
      assert r[0] == t[0];
      assert r[1..] == Insert(x, t', key);
      if !keep(t[0]) {
        if HasKept(t, keep) {
          var i :| 0 <= i < |t| && keep(t[i]);
          assert t'[i - 1] == t[i];
        }
        if HasKept(t', keep) {
          var i :| 0 <= i < |t'| && keep(t'[i]);
          assert t[i + 1] == t'[i];
        }
        InsertFirstKept(x, t', key, keep);
        var i :| 0 <= i < |r[1..]| && keep(r[1..][i]);
        assert r[i + 1] == r[1..][i];
      }
    }
  }

  /** Prepending an element to `s` either makes it the first best or shifts the first best by one. */
  lemma ConsFirstBest<T>(x: T, s: seq<T>, key: T -> real, keep: T -> bool, k: int)
    requires IsFirstBest(s, key, keep, k)
    ensures keep(x) && key(x) >= key(s[k]) ==> IsFirstBest([x] + s, key, keep, 0)
    ensures !(keep(x) && key(x) >= key(s[k])) ==> IsFirstBest([x] + s, key, keep, k + 1)
  {
    var s1 := [x] + s;
    assert forall j :: 1 <= j < |s1| ==> s1[j] == s[j - 1];
  }

  lemma ConsFirstBestAlone<T>(x: T, s: seq<T>, key: T -> real, keep: T -> bool)
    requires keep(x) && !HasKept(s, keep)
    ensures IsFirstBest([x] + s, key, keep, 0)
  {
    var s1 := [x] + s;
    assert forall j :: 1 <= j < |s1| ==> s1[j] == s[j - 1];
  }

  /**
   Stability, as used by the agent: the first element of the sorted sequence
   that `keep` admits is the first admitted element of maximal key in the
   original order.
   */
  lemma {:induction false} FirstKeptOfSorted<T>(s: seq<T>, key: T -> real, keep: T -> bool)
    requires HasKept(s, keep)
    ensures HasKept(SortDesc(s, key), keep)
    ensures exists k :: IsFirstBest(s, key, keep, k) && FirstKept(SortDesc(s, key), keep) == s[k]
  {
    HasKeptPermutation(s, SortDesc(s, key), keep);
    var x := s[0];
    var s' := s[1..];
    assert s == [x] + s';
    var t := SortDesc(s', key);
    assert SortDesc(s, key) == Insert(x, t, key);
    if !HasKept(s', keep) {
      assert keep(x);
      assert !HasKept(t, keep) by {
        if HasKept(t, keep) { HasKeptPermutation(t, s', keep); }
      }
      InsertFirstKept(x, t, key, keep);
      ConsFirstBestAlone(x, s', key, keep);
      assert IsFirstBest(s, key, keep, 0) && FirstKept(SortDesc(s, key), keep) == s[0];
    } else {
      HasKeptPermutation(s', t, keep);
      FirstKeptOfSorted(s', key, keep);
      var k' :| IsFirstBest(s', key, keep, k') && FirstKept(t, keep) == s'[k'];
      InsertFirstKept(x, t, key, keep);
      ConsFirstBest(x, s', key, keep, k');
      if keep(x) && key(x) >= key(s'[k']) {
        assert IsFirstBest(s, key, keep, 0) && FirstKept(SortDesc(s, key), keep) == s[0];
      } else {
        assert IsFirstBest(s, key, keep, k' + 1) && FirstKept(SortDesc(s, key), keep) == s[k' + 1];
      }
    }
  }

  /** `s[k]` has the greatest key above `floor`, and is the first to have it. */
  ghost predicate IsFirstMaxAbove<T>(s: seq<T>, key: T -> real, floor: real, k: int)
  {
    && 0 <= k < |s|
    && key(s[k]) > floor
    && (forall j :: 0 <= j < |s| ==> key(s[j]) <= key(s[k]))
    && (forall j :: 0 <= j < k ==> key(s[j]) < key(s[k]))
  }

  /** One step of the scan at a time: `best` is the index chosen so far, `bestKey` its key. */
  function ScanMax<T>(s: seq<T>, key: T -> real, i: nat, best: Option<nat>, bestKey: real): Option<nat>
    requires i <= |s|
    decreases |s| - i
  {
    if i == |s| then best
    else if key(s[i]) > bestKey then ScanMax(s, key, i + 1, Some(i), key(s[i]))
    else ScanMax(s, key, i + 1, best, bestKey)
  }

  /** What the scan knows after looking at `s[..i]`. */
  ghost predicate ScanState<T>(s: seq<T>, key: T -> real, floor: real, i: nat, best: Option<nat>, bestKey: real)
  {
    && i <= |s|
    && (best.None? ==> bestKey == floor && forall j :: 0 <= j < i ==> key(s[j]) <= floor)
    && (best.Some? ==>
          && best.value < i
          && bestKey == key(s[best.value])
          && bestKey > floor
          && (forall j :: 0 <= j < i ==> key(s[j]) <= bestKey)
          && (forall j :: 0 <= j < best.value ==> key(s[j]) < bestKey))
  }

  lemma {:induction false} ScanMaxCorrect<T>(s: seq<T>, key: T -> real, floor: real, i: nat, best: Option<nat>, bestKey: real)
    requires ScanState(s, key, floor, i, best, bestKey)
    ensures ScanMax(s, key, i, best, bestKey).None? ==> forall j :: 0 <= j < |s| ==> key(s[j]) <= floor
    ensures ScanMax(s, key, i, best, bestKey).Some? ==> IsFirstMaxAbove(s, key, floor, ScanMax(s, key, i, best, bestKey).value)
    decreases |s| - i
  {
    if i < |s| {
      if key(s[i]) > bestKey {
        ScanMaxCorrect(s, key, floor, i + 1, Some(i), key(s[i]));
      } else {
        ScanMaxCorrect(s, key, floor, i + 1, best, bestKey);
      }
    }
  }

  /**
   The index that scan picks: the first element with the greatest key,
   provided that key exceeds `floor`; none when no key exceeds `floor`.
   */
  function ArgMaxAbove<T>(s: seq<T>, key: T -> real, floor: real): (r: Option<nat>)
    ensures r.None? <==> forall j :: 0 <= j < |s| ==> key(s[j]) <= floor
    ensures r.Some? ==> IsFirstMaxAbove(s, key, floor, r.value)
  {
    ScanMaxCorrect(s, key, floor, 0, None, floor);
    ScanMax(s, key, 0, None, floor)
  }
}

=== FILE: strategy_factory.dfy ===
/**
 The strategy-selection table: a total map from (archetype, stance, fairness)
 to one of the scoring strategies.
 */
module StrategyFactory {
  import opened Enums

  /** The scoring strategies of the agent, one per strategy class. */
  datatype Strategy =
    | AggressiveEarlyOffers
    | ContinuedConcessions
    | ContinuedSmallerConcessions
    | Logrolling
    | RespondToExtremeOffer

  /**
   Selects the strategy. Every archetype other than Conceder and Hardliner,
   Unknown included, falls through to Logrolling.
   */
  function SelectStrategy(t: NegotiationType, s: Stance, f: Fairness): (r: Strategy)
    ensures r == Logrolling || r == ContinuedConcessions
    ensures r == ContinuedConcessions <==>
              f == Fair && ((t == Conceder && s != Greedy) || (t == Hardliner && s == Generous))
  {
    match t
    case Conceder =>
      if s == Greedy || f == Unfair then Logrolling
      else assert f == Fair; ContinuedConcessions
    case Hardliner =>
      if s == Greedy || f == Unfair then Logrolling
      else if s == Neutral then Logrolling
      else assert s == Generous && f == Fair; ContinuedConcessions
    case _ =>
      Logrolling
  }

  /** A greedy or unfair opponent is never met with concessions. */
  lemma GreedyOrUnfairGetsLogrolling(t: NegotiationType, s: Stance, f: Fairness)
    requires s == Greedy || f == Unfair
    ensures SelectStrategy(t, s, f) == Logrolling
  {
  }

  /** The Random archetype, and Unknown, get Logrolling whatever the signals. */
  lemma RandomGetsLogrolling(s: Stance, f: Fairness)
    ensures SelectStrategy(Random, s, f) == Logrolling
    ensures SelectStrategy(Unknown, s, f) == Logrolling
  {
  }

  /** Three of the five strategies are never selected. */
  lemma NeverSelected(t: NegotiationType, s: Stance, f: Fairness)
    ensures SelectStrategy(t, s, f) != AggressiveEarlyOffers
    ensures SelectStrategy(t, s, f) != ContinuedSmallerConcessions
    ensures SelectStrategy(t, s, f) != RespondToExtremeOffer
  {
  }
}

=== FILE: types.dfy ===
/**
 The values the DaniM negotiation agent works on: bids, the agent's own
 preference profile, the estimate of the opponent, and the read-only context a
 scoring strategy sees when it scores one candidate bid.

 Utilities are reals and the functions that compute them (the own profile, the
 opponent-model estimator, the social-welfare score) are given as function
 values: the model treats them as opaque.
 */
module Types {

  datatype Option<+T> = None | Some(value: T)

  type Issue = string
  type Value = string

  /** A bid assigns one value to each issue (GeniusWeb's `Bid`). */
  type Bid = map<Issue, Value>

  /** `bid.getValue(issue)`: absent when the bid has no value for the issue. */
  function ValueOf(bid: Bid, issue: Issue): Option<Value>
  {
    if issue in bid then Some(bid[issue]) else None
  }

  /** The agent's own linear additive profile, seen through what the agent asks of it. */
  datatype Profile = Profile(
    utility: Bid -> real,                 // getUtility(bid)
    weights: seq<(Issue, real)>,          // getWeights(), in profile order
    values: Issue -> seq<Value>,          // domain.getValues(issue), in domain order
    valueUtility: (Issue, Value) -> real  // getUtilities()[issue].getUtility(value)
  )

  /** What the agent reads from the opponent model at one moment. */
  datatype OpponentEstimate = OpponentEstimate(
    predicted: Bid -> real,               // get_predicted_utility(bid)
    weights: seq<(Issue, real)>,          // issue_estimators[issue].weight, in estimator order
    trackers: Issue -> seq<(Value, int)>  // issue_estimators[issue].value_trackers: value and count
  )

  /**
   Everything a scoring strategy reads from the agent when it scores a bid:
   the profile, the opponent estimate (meaningful only when `hasModel`), the
   opponent's offers so far, the agent's own offers so far, the tunables, the
   time pressure `1 - progress^(1/eps)` and the social-welfare score, which is
   not defined in the modelled code and stays opaque.
   */
  datatype ScoringContext = ScoringContext(
    profile: Profile,
    opponent: OpponentEstimate,
    hasModel: bool,
    offers: seq<Bid>,
    ownBids: seq<Bid>,
    alpha: real,
    timePressure: real,
    welfare: Bid -> real
  )

  function Abs(x: real): real
  {
    if x < 0.0 then -x else x
  }

  /**
   Both concession strategies gate on `len(own_bids) > 2`: below this many own
   offers a bid is scored by own utility alone.
   */
  const MinOwnBids: nat := 3

  function Last<T>(s: seq<T>): T
    requires |s| > 0
  {
    s[|s| - 1]
  }
}
